=== FILE: README.md ===
# Finance tracker core, modelled in Dafny

This project models the state logic of a single-page personal finance tracker. The application keeps one `AppData` record, which holds:
- accounts, transactions and shifts;
- shift types and recurring bills;
- a salary configuration;
- a log of already processed automation events.

Three parts of the application are modelled as pure functions over an immutable `AppData`:

- **The automation pass** (`Automation`). It runs whenever the salary configuration, the recurring items, the event log or the accounts change. On a given month and day of month it does the following:
  - It guards each event with a string key. The salary key is `{month}-SALARY` and a bill's key is `{month}-REC-{id}`. A key is appended to the log when its event fires.
  - It deposits the salary once the pay day has come (the pay day itself included), if its key is not yet in the log.
  - It books every recurring bill whose day has come (that day included) and whose key is not yet in the log.
  - It appends the new transactions to the transaction list and the keys to the log, or leaves the state alone when nothing fired.
- **The state-update handlers** (`Handlers`):
  - saving a day's shift, which replaces any shift on the same date;
  - deleting an account, a recurring item or a shift type by id;
  - adding an account, where a positive opening balance becomes an income transaction;
  - adding a recurring item or a shift type with a clock-derived id.
- **The loader** (`Loader`). It builds the initial state:
  - a fresh default state when nothing is stored;
  - otherwise the stored record, with five fields defaulted through JavaScript's `||`. Absent, `0` and `''` all count as missing.

The record types, the type-tag unions and the initial account and tag catalogues are in `Types`. Two smaller modules hold supporting definitions:
- `Text` holds decimal printing and `padStart`, which the date stamps and ids use.
- `Lists` holds an order-preserving filter and its laws.

The automation pass is modelled twice:
- `RecurringLoop` follows the code's loop step by step. Its membership test sees the keys pushed earlier in the same pass.
- `FiredBefore` and `Expected` form an independent reference definition. An item fires iff it is due, its key is not in the log, and no earlier due item has the same id.

`LoopMatchesReference` and `PlanMatchesReference` prove that the two agree. The properties of the pass are proved from the reference:
- emission conditions;
- independence of the items;
- the shared-id rule;
- append-only growth and order;
- no-op exactly when nothing is due;
- idempotence.

Three behaviours of the code are worth stating plainly:
- The salary also needs a positive amount (`App.tsx:104`).
- Only an empty account id falls back to `accounts[0]` (`App.tsx:112`, `App.tsx:130`). A non-empty id that names no account is written into the transaction unchanged.
- A stored string that does not parse makes `JSON.parse` at `App.tsx:21` throw; no fresh state is substituted. The model starts from an already-parsed record, so this case is not represented.

## Model

| member | source | states |
|---|---|---|
| Types.ParseTransactionType | types.ts:1 | a tag belongs to the transaction type union iff it is one of the three tags `income`, `expense`, `transfer` |
| Types.ParseAccountType | types.ts:6 | a tag belongs to the account type union iff it is one of `bank`, `cash`, `card` |
| Types.TypeTagsRoundTrip | types.ts:1-8 | each union has exactly its three tags: printing then parsing a tag gives it back, and a tag that parses came from that variant |
| Types.InitialAccountsWellFormed | types.ts:79-83 | the initial account catalogue is non-empty, its ids are pairwise distinct and its first id is `cash` |
| Loader.OrNumber | App.tsx:24 | `v \|\| fallback` on a number gives the fallback exactly when the value is absent or 0 (or equals the fallback), and otherwise the value itself |
| Loader.OrString | App.tsx:27-28 | `v \|\| ''` on a string gives the fallback exactly when the value is absent or empty, and otherwise the value itself |
| Loader.FreshState | App.tsx:31-43 | the first-start state has budget 40000, the initial accounts and tags, the same disabled salary config `{0, 5, '', false}` the loader defaults to, no transactions, shifts, shift types, bills or events, and empty sync fields |
| Loader.Load | App.tsx:18-44 | with nothing stored, the result is the fresh state; otherwise every list field is kept as parsed, a budget that is absent or 0 becomes 40000 and any other is kept, an absent salary config becomes the disabled one `{0, 5, '', false}`, an absent event log becomes empty, and the sync URL and sync time are always present, '' exactly when absent or empty and the stored value otherwise |
| Loader.Snapshot | App.tsx:61 | what a saved state parses back to: every field present with the state's own value, except an undefined sync URL or sync time, which stays absent |
| Loader.SnapshotRoundTrip | App.tsx:18-44 | saving and reloading returns the state, except that a 0 budget becomes 40000 and an absent sync URL or time becomes ''; a state with none of these comes back unchanged |
| Loader.ZeroBudgetIsReplaced | App.tsx:24 | a saved budget of 0 is read back as 40000, so that state does not survive a reload |
| Loader.LoadedStateIsStable | App.tsx:18-44 | any loaded state survives a save and reload unchanged |
| Loader.FreshStateAccounts | App.tsx:31-43 | the fresh state uses the initial catalogue, so it is non-empty with distinct ids and its fallback account is `cash` |
| Text.DecimalStringRoundTrip | App.tsx:111 | `String(n)` is a well-formed decimal that reads back as `n`, for \|n\| < 10^21 |
| Text.DecimalStringInjective | App.tsx:158 | distinct clock values print as distinct strings, so distinct clocks give distinct `acc_`/`rec_`/`st_` ids |
| Text.PadStartSpec | App.tsx:111 | `padStart(width, fill)` returns the string right-aligned in `max(len, width)` characters, with fill characters before it |
| Text.TwoDigitPad | App.tsx:111 | a day 0..99 padded to width 2 with '0' is exactly its tens digit followed by its units digit |
| Text.DecimalString | App.tsx:111 | `String(n)` is non-empty and starts with '-' exactly when `n` is negative, for \|n\| < 10^21 |
| Text.PadStart | App.tsx:111 | `padStart(width, fill)` is `max(len, width)` long and leaves a string that is already long enough unchanged |
| Lists.Filter | App.tsx:170 | `Array.filter` keeps the elements the predicate accepts, in order, with their multiplicities, and drops every other one |
| Lists.FilterAppend | App.tsx:170 | filtering a concatenation is the concatenation of the filtered parts |
| Lists.FilterIdempotent | App.tsx:170 | filtering twice with the same predicate is filtering once |
| Automation.KeysIdentifyEvents | App.tsx:103-121 | for months of equal length, a salary key is never a recurring key, and a recurring key determines its month and item id |
| Automation.SalaryKey | App.tsx:103 | the salary key starts with the month and differs from every recurring key of that month |
| Automation.RecKey | App.tsx:121 | a recurring key starts with the month and ends with the item id |
| Automation.ResolveAccount | App.tsx:112 | `accountId \|\| accounts[0]?.id` gives the configured id when it is non-empty, the first account's id when it is empty, and nothing only when it is empty and there are no accounts |
| Automation.UnknownAccountIsNotReplaced | App.tsx:130 | a non-empty id that names no account is kept as is; it is not replaced by the fallback account |
| Automation.DateStampFormat | App.tsx:111 | the transaction date is `{month}-{DD}T09:00` with the trigger day as exactly two digits |
| Automation.DateStamp | App.tsx:111 | a transaction date starts with the month and a dash, ends with `T09:00`, and is at least nine characters longer than the month |
| Automation.SalaryTx | App.tsx:106-113 | the salary transaction is an income of the configured amount with the salary note, dated `{month}-{DD}T09:00` on the pay day, charged to `accountId \|\| accounts[0]?.id` (so it has a source account unless the id is empty and there are no accounts), with no target account |
| Automation.RecTx | App.tsx:124-131 | a bill's transaction is an expense of the item's amount, noted with its name and the subscription suffix, dated `{month}-{DD}T09:00` on the item's day, charged to `accountId \|\| accounts[0]?.id` (so it has a source account unless the id is empty and there are no accounts), with no target account |
| Automation.SalaryStep | App.tsx:102-117 | the salary step adds at most one transaction, and adds one iff the salary is due and its key is not logged; it is then the salary transaction and the key is appended to a copy of the log |
| Automation.RecurringLoop | App.tsx:120-136 | the loop only appends: the collected transactions and keys extend their starting values and grow by the same count |
| Automation.LoopKeysFresh | App.tsx:120-136 | every key the loop appends was absent before it, and the appended keys are pairwise distinct |
| Automation.Plan | App.tsx:98-136 | the pass's working log extends the old log, by one key per new transaction |
| Automation.Automate | App.tsx:93-148 | the pass appends to the transactions and to the event log, by the same count; it never removes or reorders; the new keys are fresh and distinct; every other field is unchanged |
| Automation.FiredBeforeSpec | App.tsx:120-136 | the reference list of firing items is ascending, and it contains exactly the indices below `k` whose item fires |
| Automation.KeyMembership | App.tsx:121-123 | an item's key is among those the first `k` items record iff it was not in the log and some item before `k` with that id is due |
| Automation.LoopTestIsFires | App.tsx:122-123 | the loop's test (day reached, key not yet in `newProcessed`) is exactly the reference firing condition |
| Automation.LoopMatchesReference | App.tsx:120-136 | the code's loop, run from any point, ends in the batch the reference definition computes |
| Automation.PlanMatchesReference | App.tsx:98-136 | the new transactions are the salary (if it fires) and then the firing items in list order; the new log is the old log plus their keys in the same order |
| Automation.AutomateIsAppend | App.tsx:138-143 | the committed state has the old transactions followed by the new ones, and the working copy of the log |
| Automation.SalaryEmission | App.tsx:103-116 | an income transaction is emitted iff the salary is enabled, its amount is positive, the day is reached and the month's salary key is not in the log; it then comes first, with the configured amount and the stamped pay day, and its key follows the old log |
| Automation.RecurringKeyRecorded | App.tsx:120-136 | a recurring key is newly recorded iff it was not in the log and some item with that id is due |
| Automation.ItemEmittedIffFires | App.tsx:120-136 | item `i` produces its expense transaction iff it is due, its key is not in the log and no earlier due item shares its id, whatever the other items are |
| Automation.RecTxsAreExpenses | App.tsx:126 | every transaction a recurring item produces is an expense |
| Automation.PassAppends | App.tsx:98-143 | after the pass, the transactions are the old ones, then the salary, then the firing items in list order; the log is the old log followed by their keys in the same order |
| Automation.SharedIdFiresOnce | App.tsx:120-135 | when two items share an id and the earlier one is due, the later one never fires in that pass |
| Automation.NoOpIffNothingDue | App.tsx:100-143 | the pass returns the state unchanged iff every due event's key is already in the log |
| Automation.PassRecordsEverythingDue | App.tsx:93-148 | after a pass, every event due on that day is in the log |
| Automation.SecondPassIsNoOp | App.tsx:93-148 | running the pass again with the same month and day, at any clock, changes nothing |
| Automation.RepeatedPassesEqualOne | App.tsx:93-148 | any number of passes with the same month and day give the state after the first |
| Handlers.SaveShift | App.tsx:173-178 | saving a shift keeps every other field; the new shift is last and appears once; every old shift on another date is kept with its multiplicity, and no other shift remains |
| Handlers.SaveShiftReplaces | App.tsx:176 | no shift before the new one has its date, and the shifts before it are the old ones in their original order |
| Handlers.SaveShiftKeepsUniqueDates | App.tsx:176 | if dates were unique, they stay unique, so the saved date has exactly one shift |
| Handlers.SaveShiftTwiceSameDate | App.tsx:176 | saving two shifts on one date leaves only the second, as if the first was never saved |
| Handlers.DeleteAccount | App.tsx:169-171 | deleting removes exactly the accounts with that id, keeps the rest in order with their multiplicities, and does not touch transactions or any other field |
| Handlers.DeleteRec | App.tsx:193-195 | deleting removes exactly the recurring items with that id, keeps the rest in order, and touches nothing else |
| Handlers.DeleteShiftType | App.tsx:184-186 | deleting removes exactly the shift types with that id, keeps the rest in order, and touches nothing else |
| Handlers.DeleteAccountNoMatchAndTwice | App.tsx:170 | deleting an absent id changes nothing, and deleting twice is deleting once |
| Handlers.AddAccount | App.tsx:157-167 | the account `acc_{now}` with stored balance 0 is appended; a positive opening balance appends one income transaction of that amount on the new account; nothing else changes |
| Handlers.ClockId | App.tsx:158 | a clock-derived id (`acc_` here, `rec_` at App.tsx:189, `st_` at App.tsx:181) is the prefix followed by a decimal that reads back as the clock value |
| Handlers.DeleteUndoesAddAccount | App.tsx:157-171 | deleting the id just added restores the account list, when no existing account had that id |
| Handlers.AddAccountKeepsIdsDistinct | App.tsx:158 | adding an account with a fresh clock keeps account ids distinct |
| Handlers.SaveRec | App.tsx:188-191 | the drafted item is appended with id `rec_{now}`; nothing else changes |
| Handlers.DeleteUndoesSaveRec | App.tsx:188-195 | deleting the id just saved restores the state, when no existing recurring item had that id |
| Handlers.SameClockIdsCollide | App.tsx:189 | two items saved at one clock value get the same id, so deleting that id removes both, leaving the recurring list that deleting it from the original state leaves |
| Handlers.AddShiftType | App.tsx:180-182 | the drafted shift type is appended with id `st_{now}`; nothing else changes |
| Handlers.DeleteUndoesAddShiftType | App.tsx:180-186 | deleting the id just added restores the state, when no existing shift type had that id |
| Scenarios.FreshStateIsQuiet | App.tsx:31-43 | on a fresh state the automation pass does nothing, on any day |
| Scenarios.SalaryDeposited | App.tsx:103-116 | a salary of 50000 due on day 5, seen on day 10 of 2026-03, yields one income dated `2026-03-05T09:00` on `cash` and logs `2026-03-SALARY` |
| Scenarios.SalaryNotRepeated | App.tsx:105 | with `2026-03-SALARY` already logged, the same pass changes nothing |
| Scenarios.RecurringFallsBackToCash | App.tsx:130 | a bill with no account, due on day 15 and seen on day 20 of a fresh state, is one expense of its amount drawn on `cash` |

## Left out

- React plumbing (`useState`, `useEffect`, dependency arrays, modals) is not modelled. Each effect body and handler is a function from one state to the next.
- Reading and writing local storage, and `JSON.parse` / `JSON.stringify`, are I/O and are not modelled. `Loader.Load` takes the parsed record. An unparsable stored string would throw in the code; the model does not represent that case.
- Cloud sync and the financial-advice call are network services whose source is not part of this model.
- `Date.now()`, `Math.random()` and `new Date()` are parameters:
  - the current month string and day of month;
  - a clock value `now`;
  - an ISO time for the opening-balance transaction.
- Transaction ids drop the random fraction. The salary gets `now` and item `i` gets `now + i`. So the salary and the first item share the id `now` in the model, while in the code the random fractions almost surely keep them apart.
- Handlers.AddAccount: one `now` stands for both `Date.now()` reads (App.tsx:158 and 163). The opening transaction's id therefore equals the clock value in the account id, while the code's two reads may differ by a millisecond.
- The UTC month versus local day mismatch at App.tsx:95-96 is not modelled beyond taking both as inputs.
- Amounts, rates and the budget are integers; floating point and `NaN` are not modelled. The spend summation for the advice call (App.tsx:84) is left out.
- `acctFrom` is an `Option<string>` because `accounts[0]?.id` can be undefined when there are no accounts, although the declared type says `string`.
- Automation.Automate: the code's updater spreads and appends to `prev`, but commits `newProcessed`, which it built from the render's `data.processedEvents` (App.tsx:99, 139-142). The model assumes `prev` and `data` are the same state. If the effect body runs twice against one render (React's development StrictMode does this), both updaters append the same transactions while the log is set to the same keys, so the events are booked twice. The model cannot express this, and idempotence is proved only for passes that each see the previous pass's result.
- Loader.Load: the six list fields (`transactions`, `accounts`, `shifts`, `shiftTypes`, `recurring`, `tags`) are present by type. In the code, `...parsed` keeps an absent field as `undefined`. An older snapshot without `recurring` then throws at `data.recurring.forEach` (App.tsx:120), and one without `accounts` can throw at `data.accounts[0]` when a salary or bill with an empty account id fires (App.tsx:112, 130). The model does not represent such snapshots.
- Handlers.AddAccount: the code reads `data.transactions` from the render closure, not from `prev`. The model assumes both are the same state, so a concurrent update lost by that stale read is not modelled.
- Types.ParseTransactionType: the model's records hold only the three tags of each union, but the application never checks a tag at run time. The loader keeps whatever string was stored in `type` (App.tsx:21-23), and `handleAddAccount` takes `type: any` (App.tsx:157), which `Handlers.AddAccount`'s `kind: AccountType` excludes. Records with other tags are not modelled.
- Handlers.SaveRec: `handleSaveRec` takes `rec: any` and spreads it (App.tsx:188-189), so extra fields are kept and field types are never checked. The model's `RecurringDraft` has exactly the four typed fields of a recurring item; other drafts are not modelled.
- Text.DecimalString: JavaScript's `String(n)` prints integers from 10^21 on in exponent form (`"1e+21"`). The model prints every integer in plain decimal, so its contracts and `Text.DecimalStringRoundTrip` describe `String(n)` only for |n| < 10^21. Clock values and days are far below that bound.
- Types.ParseAccountType: as with transaction types, an account's stored `type` is never checked at run time; accounts with a tag outside `bank`, `cash`, `card` are not modelled.
- `handleSaveTx` and `handleSettingsSave` are not part of this model. The `HOLIDAYS` table and all rendering are left out too.
- The display names of the initial accounts and the initial tags are copied as constants; nothing is proved about them beyond the account ids.

=== FILE: automation.dfy ===
/** The automation pass (App.tsx, the salary and recurring-bill effect).

    On every evaluation the pass looks at the current month string
    (`YYYY-MM`) and day of month, and synthesises
      1. one `income` transaction for the salary, when it is enabled, has a
         positive amount, its day has come and `{month}-SALARY` has not been
         recorded yet;
      2. one `expense` transaction per recurring item, in list order, when the
         item's day has come and `{month}-REC-{id}` has not been recorded yet.
    Each fired event appends its key to the processed-event log, so a second
    pass in the same month fires nothing. The clock is a parameter: `month`,
    `day` and `now` (the millisecond stamp the transaction ids derive from). */
module Automation {
  import opened Options
  import opened Text
  import opened Lists
  import opened Types

  const SalaryNote: string := "薪資自動入帳"
  const SubscriptionSuffix: string := " (訂閱)"

  // ---------------------------------------------------------------------------
  // Idempotency keys

  /** The salary's key for a month: the month, then a marker that no
      recurring key of the same month carries. */
  function SalaryKey(month: string): (r: string)
    ensures |month| < |r| && r[..|month|] == month
    ensures forall id :: r != RecKey(month, id)
  {
    var r := month + "-SALARY";
    assert forall id :: RecKey(month, id)[|month| + 1] == 'R' != r[|month| + 1];
    r
  }

  /** A recurring item's key for a month: the month first, the item's id
      last. */
  function RecKey(month: string, id: string): (r: string)
    ensures |r| == |month| + 5 + |id|
    ensures r[..|month|] == month
    ensures r[|r| - |id|..] == id
  {
    month + "-REC-" + id
  }

  /** For months of one length (the application always uses `YYYY-MM`), a key
      names exactly one event: the salary key is never a recurring key, and a
      recurring key determines both its month and its item id. */
  lemma KeysIdentifyEvents(m1: string, m2: string, a: string, b: string)
    requires |m1| == |m2|
    ensures SalaryKey(m1) != RecKey(m2, a)
    ensures RecKey(m1, a) == RecKey(m2, b) <==> m1 == m2 && a == b
    ensures SalaryKey(m1) == SalaryKey(m2) <==> m1 == m2
  {
    assert SalaryKey(m1)[|m1| + 1] == 'S';
    assert RecKey(m2, a)[|m2| + 1] == 'R';
    if RecKey(m1, a) == RecKey(m2, b) {
      assert m1 == RecKey(m1, a)[..|m1|];
      assert m2 == RecKey(m2, b)[..|m2|];
      assert a == RecKey(m1, a)[|m1| + 5..];
      assert b == RecKey(m2, b)[|m2| + 5..];
    }
    if SalaryKey(m1) == SalaryKey(m2) {
      assert m1 == SalaryKey(m1)[..|m1|];
      assert m2 == SalaryKey(m2)[..|m2|];
    }
  }

  lemma SalaryKeyIsNoRecKey(month: string, id: string)
    ensures SalaryKey(month) != RecKey(month, id)
  {
    KeysIdentifyEvents(month, month, id, id);
  }

  lemma RecKeyInjective(month: string, a: string, b: string)
    ensures RecKey(month, a) == RecKey(month, b) ==> a == b
  {
    KeysIdentifyEvents(month, month, a, b);
  }

  // ---------------------------------------------------------------------------
  // Account and date of a synthesised transaction

  /** `accounts[0]?.id`: undefined on an empty list. */
  function FallbackAccount(accounts: seq<Account>): Option<string> {
    if |accounts| == 0 then None else Some(accounts[0].id)
  }

  /** `configured || accounts[0]?.id`. Only the empty id falls back; a
      non-empty id is used as is, whether or not an account has it. */
  function ResolveAccount(configured: string, accounts: seq<Account>): (r: Option<string>)
    ensures r.None? <==> configured == "" && |accounts| == 0
    ensures configured != "" ==> r == Some(configured)
    ensures configured == "" && |accounts| > 0 ==> r == Some(accounts[0].id)
  {
    if configured != "" then Some(configured) else FallbackAccount(accounts)
  }

  /** A configured id that names no account is still used verbatim. */
  lemma UnknownAccountIsNotReplaced(configured: string, accounts: seq<Account>)
    requires configured != ""
    requires forall a :: a in accounts ==> a.id != configured
    ensures ResolveAccount(configured, accounts) == Some(configured)
    ensures ResolveAccount(configured, accounts) != FallbackAccount(accounts)
  {
    if |accounts| > 0 {
      assert accounts[0] in accounts;
    }
  }

  /** The date of a synthesised transaction: the month, a dash, the day
      printed in decimal and left-padded with zeros to two characters, and
      the fixed time of nine in the morning. */
  function DateStamp(month: string, day: int): (r: string)
    ensures |r| >= |month| + 9
    ensures r[..|month|] == month && r[|month|] == '-'
    ensures r[|r| - 6..] == "T09:00"
  {
    month + "-" + PadStart(DecimalString(day), 2, '0') + "T09:00"
  }

  /** A day of month is written as exactly two digits. */
  lemma DateStampFormat(month: string, day: int)
    requires 0 <= day < 100
    ensures DateStamp(month, day) == month + "-" + [DigitChar(day / 10), DigitChar(day % 10)] + "T09:00"
    ensures |DateStamp(month, day)| == |month| + 9
  {
    TwoDigitPad(day);
  }

  // ---------------------------------------------------------------------------
  // The pass, as the effect computes it

  predicate SalaryDue(cfg: SalaryConfig, day: int) {
    cfg.enabled && cfg.amount > 0 && day >= cfg.day
  }

  predicate RecDue(rec: RecurringItem, day: int) {
    day >= rec.day
  }

  /** The salary deposit: an income of the configured amount, dated in the
      month on the configured day, drawn on the configured account or the
      fallback one, with no target account. */
  function SalaryTx(month: string, cfg: SalaryConfig, accounts: seq<Account>, id: int): (r: Transaction)
    ensures r.kind == Income && r.amount == cfg.amount && r.id == id
    ensures |month| < |r.date| && r.date[..|month|] == month
    ensures r.acctFrom.Some? <==> cfg.accountId != "" || |accounts| > 0
    ensures r.acctFrom == ResolveAccount(cfg.accountId, accounts)
    ensures r.date == DateStamp(month, cfg.day) && r.note == SalaryNote
    ensures r.acctTo.None?
  {
    Transaction(id, Income, cfg.amount, SalaryNote, DateStamp(month, cfg.day),
                ResolveAccount(cfg.accountId, accounts), None)
  }

  /** A recurring bill: an expense of the item's amount, noted with the
      item's name and the subscription suffix, dated in the month on the
      item's day, drawn on its account or the fallback one. */
  function RecTx(month: string, rec: RecurringItem, accounts: seq<Account>, id: int): (r: Transaction)
    ensures r.kind == Expense && r.amount == rec.amount && r.id == id
    ensures |rec.name| <= |r.note| && r.note[..|rec.name|] == rec.name && r.note[|rec.name|..] == SubscriptionSuffix
    ensures |month| < |r.date| && r.date[..|month|] == month
    ensures r.acctFrom.Some? <==> rec.accountId != "" || |accounts| > 0
    ensures r.acctFrom == ResolveAccount(rec.accountId, accounts)
    ensures r.date == DateStamp(month, rec.day)
    ensures r.acctTo.None?
  {
    Transaction(id, Expense, rec.amount, rec.name + SubscriptionSuffix, DateStamp(month, rec.day),
                ResolveAccount(rec.accountId, accounts), None)
  }

  /** The effect's working pair: `newTxs` and `newProcessed`. */
  datatype Batch = Batch(txs: seq<Transaction>, keys: seq<string>)

  /** Step 1: `newProcessed` starts as a copy of the log; the salary may
      push one transaction and its key. */
  function SalaryStep(month: string, day: int, now: int, data: AppData): (r: Batch)
    ensures |r.txs| <= 1
    ensures |r.txs| == 1 <==> SalaryDue(data.salaryConfig, day) && SalaryKey(month) !in data.processedEvents
    ensures |r.txs| == 1 ==> r.txs[0] == SalaryTx(month, data.salaryConfig, data.accounts, now)
    ensures r.keys == data.processedEvents + (if |r.txs| == 1 then [SalaryKey(month)] else [])
  {
    var key := SalaryKey(month);
    if SalaryDue(data.salaryConfig, day) && key !in data.processedEvents then
      Batch([SalaryTx(month, data.salaryConfig, data.accounts, now)], data.processedEvents + [key])
    else
      Batch([], data.processedEvents)
  }

  /** Step 2: the `forEach` over the recurring items from index `i` on. The
      membership test sees the keys pushed earlier in the same pass. Keys and
      transactions only grow, and in step. */
  function RecurringLoop(month: string, day: int, now: int, data: AppData, i: nat, acc: Batch): (r: Batch)
    requires i <= |data.recurring|
    ensures |acc.txs| <= |r.txs| && r.txs[..|acc.txs|] == acc.txs
    ensures |acc.keys| <= |r.keys| && r.keys[..|acc.keys|] == acc.keys
    ensures |r.txs| - |acc.txs| == |r.keys| - |acc.keys|
    decreases |data.recurring| - i
  {
    if i == |data.recurring| then acc
    else
      var rec := data.recurring[i];
      var key := RecKey(month, rec.id);
      if RecDue(rec, day) && key !in acc.keys then
        RecurringLoop(month, day, now, data, i + 1,
                      Batch(acc.txs + [RecTx(month, rec, data.accounts, now + i)], acc.keys + [key]))
      else
        RecurringLoop(month, day, now, data, i + 1, acc)
  }

  /** Every key the loop pushes is new: absent from the keys it started
      with, and different from every other key it pushes. */
  lemma {:induction false} LoopKeysFresh(month: string, day: int, now: int, data: AppData, i: nat, acc: Batch)
    requires i <= |data.recurring|
    ensures forall a :: |acc.keys| <= a < |RecurringLoop(month, day, now, data, i, acc).keys| ==>
              RecurringLoop(month, day, now, data, i, acc).keys[a] !in acc.keys
    ensures forall a, b :: |acc.keys| <= a < b < |RecurringLoop(month, day, now, data, i, acc).keys| ==>
              RecurringLoop(month, day, now, data, i, acc).keys[a] != RecurringLoop(month, day, now, data, i, acc).keys[b]
    decreases |data.recurring| - i
  {
    if i < |data.recurring| {
      var rec := data.recurring[i];
      var key := RecKey(month, rec.id);
      if RecDue(rec, day) && key !in acc.keys {
        var next := Batch(acc.txs + [RecTx(month, rec, data.accounts, now + i)], acc.keys + [key]);
        LoopKeysFresh(month, day, now, data, i + 1, next);
        var r := RecurringLoop(month, day, now, data, i + 1, next);
        assert RecurringLoop(month, day, now, data, i, acc) == r;
        assert r.keys[..|next.keys|] == next.keys;
        assert r.keys[|acc.keys|] == key;
        forall a | |acc.keys| <= a < |r.keys|
          ensures r.keys[a] !in acc.keys
        {
          if a > |acc.keys| {
            assert r.keys[a] !in next.keys;
          }
        }
      } else {
        LoopKeysFresh(month, day, now, data, i + 1, acc);
      }
    }
  }

  /** The new transactions and the new processed-event log of one pass. The
      log is only extended, by one key per new transaction. */
  function Plan(month: string, day: int, now: int, data: AppData): (r: Batch)
    ensures |data.processedEvents| <= |r.keys| && r.keys[..|data.processedEvents|] == data.processedEvents
    ensures |r.txs| == |r.keys| - |data.processedEvents|
  {
    RecurringLoop(month, day, now, data, 0, SalaryStep(month, day, now, data))
  }

  /** One evaluation of the effect: when something fired, the new
      transactions are appended and the log replaced by its extension;
      otherwise the state is returned unchanged. */
  function Automate(month: string, day: int, now: int, data: AppData): (r: AppData)
    ensures |data.transactions| <= |r.transactions|
    ensures r.transactions[..|data.transactions|] == data.transactions
    ensures |data.processedEvents| <= |r.processedEvents|
    ensures r.processedEvents[..|data.processedEvents|] == data.processedEvents
    ensures |r.transactions| - |data.transactions| == |r.processedEvents| - |data.processedEvents|
    ensures forall a :: |data.processedEvents| <= a < |r.processedEvents| ==> r.processedEvents[a] !in data.processedEvents
    ensures forall a, b :: |data.processedEvents| <= a < b < |r.processedEvents| ==> r.processedEvents[a] != r.processedEvents[b]
    ensures r.(transactions := data.transactions, processedEvents := data.processedEvents) == data
  {
    var b := Plan(month, day, now, data);
    LoopKeysFresh(month, day, now, data, 0, SalaryStep(month, day, now, data));
    if |b.txs| > 0 then
      data.(transactions := data.transactions + b.txs, processedEvents := b.keys)
    else
      data
  }

  // ---------------------------------------------------------------------------
  // Reference definition: which events fire, stated without the loop state

  predicate SalaryFires(month: string, day: int, data: AppData) {
    SalaryDue(data.salaryConfig, day) && SalaryKey(month) !in data.processedEvents
  }

  /** Some item before index `i` has id `id` and is due. */
  predicate EarlierDue(recs: seq<RecurringItem>, day: int, id: string, i: nat)
    requires i <= |recs|
  {
    exists j :: 0 <= j < i && recs[j].id == id && RecDue(recs[j], day)
  }

  /** Item `i` fires: it is due, its key was not in the log before the pass,
      and no earlier due item shares its id (that one fired instead). */
  predicate RecFires(month: string, day: int, data: AppData, i: nat)
    requires i < |data.recurring|
  {
    var rec := data.recurring[i];
    && RecDue(rec, day)
    && RecKey(month, rec.id) !in data.processedEvents
    && !EarlierDue(data.recurring, day, rec.id, i)
  }

  /** The indices below `k` of the items that fire, ascending. */
  function FiredBefore(month: string, day: int, data: AppData, k: nat): (r: seq<nat>)
    requires k <= |data.recurring|
    ensures forall a :: 0 <= a < |r| ==> r[a] < k
  {
    if k == 0 then []
    else
      var front := FiredBefore(month, day, data, k - 1);
      front + (if RecFires(month, day, data, k - 1) then [k - 1] else [])
  }

  lemma FiredBeforeStep(month: string, day: int, data: AppData, i: nat)
    requires i < |data.recurring|
    ensures FiredBefore(month, day, data, i + 1)
         == FiredBefore(month, day, data, i) + (if RecFires(month, day, data, i) then [i] else [])
  {
  }

  /** The firing indices are ascending and are exactly the indices below `k`
      whose item fires. */
  lemma {:induction false} FiredBeforeSpec(month: string, day: int, data: AppData, k: nat)
    requires k <= |data.recurring|
    ensures var r := FiredBefore(month, day, data, k);
      forall a, b :: 0 <= a < b < |r| ==> r[a] < r[b]
    ensures forall n: nat :: n in FiredBefore(month, day, data, k) <==> n < k && RecFires(month, day, data, n)
  {
    if k > 0 {
      FiredBeforeSpec(month, day, data, k - 1);
      FiredBeforeStep(month, day, data, k - 1);
    }
  }

  predicate IndicesIn(idx: seq<nat>, n: nat) {
    forall a :: 0 <= a < |idx| ==> idx[a] < n
  }

  /** The transactions of the items at `idx`; item `i` gets id `now + i`. */
  function RecTxsAt(month: string, now: int, data: AppData, idx: seq<nat>): (r: seq<Transaction>)
    requires IndicesIn(idx, |data.recurring|)
    ensures |r| == |idx|
  {
    if idx == [] then []
    else
      var last := idx[|idx| - 1];
      RecTxsAt(month, now, data, idx[..|idx| - 1]) + [RecTx(month, data.recurring[last], data.accounts, now + last)]
  }

  function RecKeysAt(month: string, data: AppData, idx: seq<nat>): (r: seq<string>)
    requires IndicesIn(idx, |data.recurring|)
    ensures |r| == |idx|
  {
    if idx == [] then []
    else
      var last := idx[|idx| - 1];
      RecKeysAt(month, data, idx[..|idx| - 1]) + [RecKey(month, data.recurring[last].id)]
  }

  function SalaryTxs(month: string, day: int, now: int, data: AppData): seq<Transaction> {
    if SalaryFires(month, day, data) then [SalaryTx(month, data.salaryConfig, data.accounts, now)] else []
  }

  function SalaryKeys(month: string, day: int, data: AppData): seq<string> {
    if SalaryFires(month, day, data) then [SalaryKey(month)] else []
  }

  /** Nothing is newly due: the salary is not due or already recorded, and
      every due item's key is already recorded. */
  predicate NothingNewlyDue(month: string, day: int, data: AppData) {
    && (SalaryDue(data.salaryConfig, day) ==> SalaryKey(month) in data.processedEvents)
    && forall i :: 0 <= i < |data.recurring| && RecDue(data.recurring[i], day) ==>
         RecKey(month, data.recurring[i].id) in data.processedEvents
  }

  // ---------------------------------------------------------------------------
  // The loop agrees with the reference definition

  lemma RecKeysAtSnoc(month: string, data: AppData, idx: seq<nat>, n: nat)
    requires IndicesIn(idx, |data.recurring|) && n < |data.recurring|
    ensures IndicesIn(idx + [n], |data.recurring|)
    ensures RecKeysAt(month, data, idx + [n]) == RecKeysAt(month, data, idx) + [RecKey(month, data.recurring[n].id)]
  {
    assert (idx + [n])[..|idx|] == idx;
  }

  lemma RecTxsAtSnoc(month: string, now: int, data: AppData, idx: seq<nat>, n: nat)
    requires IndicesIn(idx, |data.recurring|) && n < |data.recurring|
    ensures IndicesIn(idx + [n], |data.recurring|)
    ensures RecTxsAt(month, now, data, idx + [n]) == RecTxsAt(month, now, data, idx) + [RecTx(month, data.recurring[n], data.accounts, now + n)]
  {
    assert (idx + [n])[..|idx|] == idx;
  }

  lemma EarlierDueStep(recs: seq<RecurringItem>, day: int, id: string, i: nat)
    requires i < |recs|
    ensures EarlierDue(recs, day, id, i + 1)
        <==> EarlierDue(recs, day, id, i) || (recs[i].id == id && RecDue(recs[i], day))
  {
    if EarlierDue(recs, day, id, i + 1) {
      var j :| 0 <= j < i + 1 && recs[j].id == id && RecDue(recs[j], day);
      if j < i {
        assert EarlierDue(recs, day, id, i);
      }
    }
    if EarlierDue(recs, day, id, i) {
      var j :| 0 <= j < i && recs[j].id == id && RecDue(recs[j], day);
      assert 0 <= j < i + 1;
    }
    if recs[i].id == id && RecDue(recs[i], day) {
      assert 0 <= i < i + 1;
    }
  }

  /** After the items below `k` are processed, an item id's key has been
      pushed exactly when it was not in the log and some item with that id
      below `k` was due. */
  lemma {:induction false} KeyMembership(month: string, day: int, data: AppData, id: string, k: nat)
    requires k <= |data.recurring|
    ensures RecKey(month, id) in RecKeysAt(month, data, FiredBefore(month, day, data, k))
       <==> RecKey(month, id) !in data.processedEvents && EarlierDue(data.recurring, day, id, k)
  {
    var recs := data.recurring;
    if k == 0 {
      assert !EarlierDue(recs, day, id, 0);
    } else {
      var i := k - 1;
      KeyMembership(month, day, data, id, i);
      EarlierDueStep(recs, day, id, i);
      RecKeysStep(month, day, data, i);
      if RecFires(month, day, data, i) {
        RecKeyInjective(month, id, recs[i].id);
      } else if recs[i].id == id && RecDue(recs[i], day) && RecKey(month, id) !in data.processedEvents {
        assert EarlierDue(recs, day, id, i);
      }
    }
  }

  /** At item `i`, the loop's membership test passes exactly when the
      reference definition says the item fires. */
  lemma LoopTestIsFires(month: string, day: int, data: AppData, i: nat)
    requires i < |data.recurring|
    ensures var keys := data.processedEvents + SalaryKeys(month, day, data)
                        + RecKeysAt(month, data, FiredBefore(month, day, data, i));
      (RecDue(data.recurring[i], day) && RecKey(month, data.recurring[i].id) !in keys)
        <==> RecFires(month, day, data, i)
  {
    var id := data.recurring[i].id;
    var key := RecKey(month, id);
    KeyMembership(month, day, data, id, i);
    SalaryKeyIsNoRecKey(month, id);
    assert key !in SalaryKeys(month, day, data);
  }

  /** The loop state the reference definition predicts after the items
      below `i`: the salary part, then one transaction and one key for each
      firing item, in list order. */
  function Expected(month: string, day: int, now: int, data: AppData, i: nat): Batch
    requires i <= |data.recurring|
  {
    if i == 0 then
      Batch(SalaryTxs(month, day, now, data), data.processedEvents + SalaryKeys(month, day, data))
    else
      var e := Expected(month, day, now, data, i - 1);
      var rec := data.recurring[i - 1];
      if RecFires(month, day, data, i - 1) then
        Batch(e.txs + [RecTx(month, rec, data.accounts, now + i - 1)], e.keys + [RecKey(month, rec.id)])
      else
        e
  }

  /** Advancing the firing indices by one item adds that item's
      transaction exactly when it fires. */
  lemma RecTxsStep(month: string, day: int, now: int, data: AppData, k: nat)
    requires k < |data.recurring|
    ensures RecTxsAt(month, now, data, FiredBefore(month, day, data, k + 1))
         == RecTxsAt(month, now, data, FiredBefore(month, day, data, k))
            + (if RecFires(month, day, data, k) then [RecTx(month, data.recurring[k], data.accounts, now + k)] else [])
  {
    var front := FiredBefore(month, day, data, k);
    FiredBeforeStep(month, day, data, k);
    if RecFires(month, day, data, k) {
      RecTxsAtSnoc(month, now, data, front, k);
    } else {
      assert FiredBefore(month, day, data, k + 1) == front;
    }
  }

  lemma RecKeysStep(month: string, day: int, data: AppData, k: nat)
    requires k < |data.recurring|
    ensures RecKeysAt(month, data, FiredBefore(month, day, data, k + 1))
         == RecKeysAt(month, data, FiredBefore(month, day, data, k))
            + (if RecFires(month, day, data, k) then [RecKey(month, data.recurring[k].id)] else [])
  {
    var front := FiredBefore(month, day, data, k);
    FiredBeforeStep(month, day, data, k);
    if RecFires(month, day, data, k) {
      RecKeysAtSnoc(month, data, front, k);
    } else {
      assert FiredBefore(month, day, data, k + 1) == front;
    }
  }

  /** The expected transactions in closed form, over the firing indices. */
  lemma {:induction false} ExpectedTxsClosedForm(month: string, day: int, now: int, data: AppData, i: nat)
    requires i <= |data.recurring|
    ensures Expected(month, day, now, data, i).txs
         == SalaryTxs(month, day, now, data) + RecTxsAt(month, now, data, FiredBefore(month, day, data, i))
  {
    if i > 0 {
      var k := i - 1;
      ExpectedTxsClosedForm(month, day, now, data, k);
      RecTxsStep(month, day, now, data, k);
      var salary := SalaryTxs(month, day, now, data);
      var recTxs := RecTxsAt(month, now, data, FiredBefore(month, day, data, k));
      var more := if RecFires(month, day, data, k) then [RecTx(month, data.recurring[k], data.accounts, now + k)] else [];
      AppendAssoc(salary, recTxs, more);
    }
  }

  /** The expected keys in closed form, over the firing indices. */
  lemma {:induction false} ExpectedKeysClosedForm(month: string, day: int, now: int, data: AppData, i: nat)
    requires i <= |data.recurring|
    ensures Expected(month, day, now, data, i).keys
         == data.processedEvents + SalaryKeys(month, day, data) + RecKeysAt(month, data, FiredBefore(month, day, data, i))
  {
    if i > 0 {
      var k := i - 1;
      ExpectedKeysClosedForm(month, day, now, data, k);
      RecKeysStep(month, day, data, k);
      var log := data.processedEvents + SalaryKeys(month, day, data);
      var recKeys := RecKeysAt(month, data, FiredBefore(month, day, data, k));
      var more := if RecFires(month, day, data, k) then [RecKey(month, data.recurring[k].id)] else [];
      AppendAssoc(log, recKeys, more);
    }
  }

  /** One iteration of the `forEach` moves the expected state from `i` to
      `i + 1`. */
  lemma LoopStep(month: string, day: int, now: int, data: AppData, i: nat)
    requires i < |data.recurring|
    ensures RecurringLoop(month, day, now, data, i, Expected(month, day, now, data, i))
         == RecurringLoop(month, day, now, data, i + 1, Expected(month, day, now, data, i + 1))
  {
    LoopTestIsFires(month, day, data, i);
    ExpectedKeysClosedForm(month, day, now, data, i);
  }

  /** Loop invariant of the `forEach`, run to the end of the list. */
  lemma {:induction false} LoopMatchesReference(month: string, day: int, now: int, data: AppData, i: nat)
    requires i <= |data.recurring|
    ensures RecurringLoop(month, day, now, data, i, Expected(month, day, now, data, i))
         == Expected(month, day, now, data, |data.recurring|)
    decreases |data.recurring| - i
  {
    if i < |data.recurring| {
      LoopStep(month, day, now, data, i);
      LoopMatchesReference(month, day, now, data, i + 1);
    }
  }

  /** The code's pass ends in the reference batch after the last item. */
  lemma PlanIsExpected(month: string, day: int, now: int, data: AppData)
    ensures Plan(month, day, now, data) == Expected(month, day, now, data, |data.recurring|)
  {
    assert SalaryStep(month, day, now, data) == Expected(month, day, now, data, 0);
    LoopMatchesReference(month, day, now, data, 0);
  }

  /** What one pass computes, in closed form: the salary (if it fires) and
      then the firing recurring items in list order; keys likewise, appended
      to the old log. */
  lemma PlanMatchesReference(month: string, day: int, now: int, data: AppData)
    ensures Plan(month, day, now, data).txs
         == SalaryTxs(month, day, now, data) + RecTxsAt(month, now, data, FiredBefore(month, day, data, |data.recurring|))
    ensures Plan(month, day, now, data).keys
         == data.processedEvents + SalaryKeys(month, day, data) + RecKeysAt(month, data, FiredBefore(month, day, data, |data.recurring|))
  {
    PlanIsExpected(month, day, now, data);
    ExpectedTxsClosedForm(month, day, now, data, |data.recurring|);
    ExpectedKeysClosedForm(month, day, now, data, |data.recurring|);
  }

  /** The state after a pass is the old state with the planned transactions
      appended and the log replaced by the planned keys, also when nothing
      fired. */
  lemma AutomateIsAppend(month: string, day: int, now: int, data: AppData)
    ensures Automate(month, day, now, data).transactions == data.transactions + Plan(month, day, now, data).txs
    ensures Automate(month, day, now, data).processedEvents == Plan(month, day, now, data).keys
  {
    var b := Plan(month, day, now, data);
    var s := SalaryStep(month, day, now, data);
    assert |s.keys| - |data.processedEvents| == |s.txs|;
    if b.txs == [] {
      assert b.keys == b.keys[..|s.keys|] == s.keys;
    }
  }

  // ---------------------------------------------------------------------------
  // Properties of the pass

  lemma {:induction false} RecTxsAreExpenses(month: string, now: int, data: AppData, idx: seq<nat>)
    requires IndicesIn(idx, |data.recurring|)
    ensures forall t :: t in RecTxsAt(month, now, data, idx) ==> t.kind == Expense
    decreases |idx|
  {
    if idx != [] {
      RecTxsAreExpenses(month, now, data, idx[..|idx| - 1]);
    }
  }

  /** The salary transaction is emitted exactly when the salary is enabled,
      positive, due and not yet recorded for the month; it is then the first
      new transaction, an income of the configured amount dated on the
      configured day at 09:00, and its key is the first new key. */
  lemma SalaryEmission(month: string, day: int, now: int, data: AppData)
    ensures var b := Plan(month, day, now, data);
      (exists t :: t in b.txs && t.kind == Income) <==> SalaryFires(month, day, data)
    ensures var b := Plan(month, day, now, data);
      SalaryFires(month, day, data) ==>
        && b.txs[0] == SalaryTx(month, data.salaryConfig, data.accounts, now)
        && b.txs[0].kind == Income
        && b.txs[0].amount == data.salaryConfig.amount
        && b.txs[0].date == DateStamp(month, data.salaryConfig.day)
        && b.keys[|data.processedEvents|] == SalaryKey(month)
  {
    PlanMatchesReference(month, day, now, data);
    RecTxsAreExpenses(month, now, data, FiredBefore(month, day, data, |data.recurring|));
    var b := Plan(month, day, now, data);
    if SalaryFires(month, day, data) {
      assert b.txs[0] in b.txs;
    }
  }

  /** Cutting the log off `log + a + b` leaves `a + b`. */
  lemma DropPrefix(log: seq<string>, a: seq<string>, b: seq<string>)
    ensures ((log + a) + b)[|log|..] == a + b
  {
    AppendAssoc(log, a, b);
  }

  /** The keys one pass appends to the log: the salary's, then the firing
      items' in list order. */
  lemma NewKeys(month: string, day: int, now: int, data: AppData)
    ensures |data.processedEvents| <= |Plan(month, day, now, data).keys|
    ensures Plan(month, day, now, data).keys[|data.processedEvents|..]
         == SalaryKeys(month, day, data) + RecKeysAt(month, data, FiredBefore(month, day, data, |data.recurring|))
  {
    PlanMatchesReference(month, day, now, data);
    var log := data.processedEvents;
    var salary := SalaryKeys(month, day, data);
    var recs := RecKeysAt(month, data, FiredBefore(month, day, data, |data.recurring|));
    DropPrefix(log, salary, recs);
  }

  /** Each recurring key is tracked on its own: after the pass, the key of id
      `id` has been newly recorded exactly when it was absent and some item
      carrying that id is due. Firing one item never records another's key. */
  lemma RecurringKeyRecorded(month: string, day: int, now: int, data: AppData, id: string)
    ensures var b := Plan(month, day, now, data);
      (RecKey(month, id) in b.keys[|data.processedEvents|..])
        <==> (RecKey(month, id) !in data.processedEvents
              && exists j :: 0 <= j < |data.recurring| && data.recurring[j].id == id && RecDue(data.recurring[j], day))
  {
    NewKeys(month, day, now, data);
    KeyMembership(month, day, data, id, |data.recurring|);
    SalaryKeyIsNoRecKey(month, id);
    assert RecKey(month, id) !in SalaryKeys(month, day, data);
  }

  lemma {:induction false} RecTxsAtIndex(month: string, now: int, data: AppData, idx: seq<nat>, k: nat)
    requires IndicesIn(idx, |data.recurring|) && k < |idx|
    ensures RecTxsAt(month, now, data, idx)[k] == RecTx(month, data.recurring[idx[k]], data.accounts, now + idx[k])
    decreases |idx|
  {
    if k < |idx| - 1 {
      RecTxsAtIndex(month, now, data, idx[..|idx| - 1], k);
    }
  }

  lemma RefHoldsFiringItem(month: string, day: int, now: int, data: AppData, i: nat)
    requires i < |data.recurring| && RecFires(month, day, data, i)
    ensures RecTx(month, data.recurring[i], data.accounts, now + i)
              in SalaryTxs(month, day, now, data) + RecTxsAt(month, now, data, FiredBefore(month, day, data, |data.recurring|))
  {
    var fired := FiredBefore(month, day, data, |data.recurring|);
    FiredBeforeSpec(month, day, data, |data.recurring|);
    assert i in fired;
    var k :| 0 <= k < |fired| && fired[k] == i;
    RecTxsAtIndex(month, now, data, fired, k);
    var recs := RecTxsAt(month, now, data, fired);
    var tx := RecTx(month, data.recurring[i], data.accounts, now + i);
    assert recs[k] == tx;
    assert tx in recs;
    var salary := SalaryTxs(month, day, now, data);
    assert tx in salary + recs;
  }

  lemma RefHoldsOnlyFiringItems(month: string, day: int, now: int, data: AppData, i: nat)
    requires i < |data.recurring|
    requires RecTx(month, data.recurring[i], data.accounts, now + i)
              in SalaryTxs(month, day, now, data) + RecTxsAt(month, now, data, FiredBefore(month, day, data, |data.recurring|))
    ensures RecFires(month, day, data, i)
  {
    var fired := FiredBefore(month, day, data, |data.recurring|);
    var salary := SalaryTxs(month, day, now, data);
    var recs := RecTxsAt(month, now, data, fired);
    var tx := RecTx(month, data.recurring[i], data.accounts, now + i);
    assert tx !in salary;
    var k :| 0 <= k < |recs| && recs[k] == tx;
    RecTxsAtIndex(month, now, data, fired, k);
    assert fired[k] == i;
    FiredBeforeSpec(month, day, data, |data.recurring|);
    assert fired[k] in fired;
  }

  /** Per-item independence: the transaction of item `i` (the one with id
      `now + i`) is among the pass's new transactions exactly when the item
      fires, whatever the other items do. */
  lemma ItemEmittedIffFires(month: string, day: int, now: int, data: AppData, i: nat)
    requires i < |data.recurring|
    ensures RecTx(month, data.recurring[i], data.accounts, now + i) in Plan(month, day, now, data).txs
        <==> RecFires(month, day, data, i)
  {
    PlanMatchesReference(month, day, now, data);
    if RecFires(month, day, data, i) {
      RefHoldsFiringItem(month, day, now, data, i);
    }
    if RecTx(month, data.recurring[i], data.accounts, now + i) in Plan(month, day, now, data).txs {
      RefHoldsOnlyFiringItems(month, day, now, data, i);
    }
  }

  /** Append-only growth and output order in one statement: the pass
      appends the salary transaction (if it fires) and then the firing
      items' transactions in list order, and appends their keys in the same
      order; nothing already present is removed or reordered. */
  lemma PassAppends(month: string, day: int, now: int, data: AppData)
    ensures Automate(month, day, now, data).transactions
         == data.transactions + SalaryTxs(month, day, now, data)
            + RecTxsAt(month, now, data, FiredBefore(month, day, data, |data.recurring|))
    ensures Automate(month, day, now, data).processedEvents
         == data.processedEvents + SalaryKeys(month, day, data)
            + RecKeysAt(month, data, FiredBefore(month, day, data, |data.recurring|))
  {
    AutomateIsAppend(month, day, now, data);
    PlanMatchesReference(month, day, now, data);
    var fired := FiredBefore(month, day, data, |data.recurring|);
    var salary := SalaryTxs(month, day, now, data);
    var recs := RecTxsAt(month, now, data, fired);
    AppendAssoc(data.transactions, salary, recs);
  }

  /** Of two items that share an id and are both due, only the earlier fires. */
  lemma SharedIdFiresOnce(month: string, day: int, data: AppData, i: nat, j: nat)
    requires i < j < |data.recurring|
    requires data.recurring[i].id == data.recurring[j].id
    requires RecDue(data.recurring[i], day)
    ensures !RecFires(month, day, data, j)
  {
    assert EarlierDue(data.recurring, day, data.recurring[j].id, j);
  }

  /** The pass changes the state exactly when something is newly due. */
  lemma NoOpIffNothingDue(month: string, day: int, now: int, data: AppData)
    ensures Automate(month, day, now, data) == data <==> NothingNewlyDue(month, day, data)
  {
    PlanMatchesReference(month, day, now, data);
    var fired := FiredBefore(month, day, data, |data.recurring|);
    var b := Plan(month, day, now, data);
    assert b.txs == [] <==> !SalaryFires(month, day, data) && fired == [];
    assert Automate(month, day, now, data) == data <==> b.txs == [] by {
      if b.txs != [] {
        assert |Automate(month, day, now, data).transactions| > |data.transactions|;
      }
    }
    FiredBeforeSpec(month, day, data, |data.recurring|);
    if fired != [] {
      assert fired[0] in fired;
      assert RecFires(month, day, data, fired[0]);
    }
    if !NothingNewlyDue(month, day, data) && !SalaryFires(month, day, data) {
      var i :| 0 <= i < |data.recurring| && RecDue(data.recurring[i], day)
               && RecKey(month, data.recurring[i].id) !in data.processedEvents;
      KeyMembership(month, day, data, data.recurring[i].id, |data.recurring|);
      assert EarlierDue(data.recurring, day, data.recurring[i].id, |data.recurring|);
      assert fired != [];
    }
  }

  /** After a pass, nothing is newly due for the same month and day. */
  lemma PassRecordsEverythingDue(month: string, day: int, now: int, data: AppData)
    ensures NothingNewlyDue(month, day, Automate(month, day, now, data))
  {
    var r := Automate(month, day, now, data);
    PlanMatchesReference(month, day, now, data);
    NoOpIffNothingDue(month, day, now, data);
    if r != data {
      var b := Plan(month, day, now, data);
      assert r.processedEvents == b.keys;
      forall i | 0 <= i < |r.recurring| && RecDue(r.recurring[i], day)
        ensures RecKey(month, r.recurring[i].id) in r.processedEvents
      {
        var id := data.recurring[i].id;
        KeyMembership(month, day, data, id, |data.recurring|);
        assert EarlierDue(data.recurring, day, id, |data.recurring|);
      }
    }
  }

  /** Idempotency: a second pass in the same month and day, whatever its
      clock stamp, leaves the state as the first pass left it. */
  lemma SecondPassIsNoOp(month: string, day: int, now1: int, now2: int, data: AppData)
    ensures var once := Automate(month, day, now1, data);
      Automate(month, day, now2, once) == once
  {
    PassRecordsEverythingDue(month, day, now1, data);
    NoOpIffNothingDue(month, day, now2, Automate(month, day, now1, data));
  }

  /** Consecutive passes at the clock stamps `nows`, same month and day. */
  function RunPasses(month: string, day: int, nows: seq<int>, data: AppData): AppData
    decreases |nows|
  {
    if nows == [] then data else RunPasses(month, day, nows[1..], Automate(month, day, nows[0], data))
  }

  /** Any number of passes in one month and day equals the first pass. */
  lemma {:induction false} RepeatedPassesEqualOne(month: string, day: int, nows: seq<int>, data: AppData)
    requires |nows| > 0
    ensures RunPasses(month, day, nows, data) == Automate(month, day, nows[0], data)
    decreases |nows|
  {
    var once := Automate(month, day, nows[0], data);
    if |nows| > 1 {
      SecondPassIsNoOp(month, day, nows[0], nows[1], data);
      RepeatedPassesEqualOne(month, day, nows[1..], once);
      assert nows[1..][0] == nows[1];
    }
  }
}

=== FILE: handlers.dfy ===
/** The state-update handlers of App.tsx, each a function from the current
    state to the next. Ids the source derives from `Date.now()` are built
    from the `now` parameter. */
module Handlers {
  import opened Options
  import opened Text
  import opened Lists
  import opened Types

  // ---------------------------------------------------------------------------
  // Shifts: one entry per date, replaced on save

  /** At most one `DayShift` per date. */
  predicate UniqueDates(shifts: seq<DayShift>) {
    forall i, j :: 0 <= i < j < |shifts| ==> shifts[i].date != shifts[j].date
  }

  /** `handleSaveShift`: drop any shift on the same date, append the new one.
      The new shift comes last, and the shifts kept are exactly the old ones
      on other dates; nothing else changes. */
  function SaveShift(data: AppData, shift: DayShift): (r: AppData)
    ensures r.(shifts := data.shifts) == data
    ensures |r.shifts| > 0 && r.shifts[|r.shifts| - 1] == shift
    ensures forall s :: s in r.shifts <==> s == shift || (s in data.shifts && s.date != shift.date)
    ensures forall s: DayShift :: s.date != shift.date ==> multiset(r.shifts)[s] == multiset(data.shifts)[s]
    ensures multiset(r.shifts)[shift] == 1
  {
    data.(shifts := Filter(data.shifts, (s: DayShift) => s.date != shift.date) + [shift])
  }

  /** After a save exactly one shift has the saved date, the last one, and
      the others keep their original relative order. */
  lemma SaveShiftReplaces(data: AppData, shift: DayShift)
    ensures var r := SaveShift(data, shift).shifts;
      forall i :: 0 <= i < |r| - 1 ==> r[i].date != shift.date
    ensures var r := SaveShift(data, shift).shifts;
      SubsequenceOf(r[..|r| - 1], data.shifts)
  {
    var kept := Filter(data.shifts, (s: DayShift) => s.date != shift.date);
    var r := SaveShift(data, shift).shifts;
    assert r == kept + [shift];
    assert r[..|r| - 1] == kept;
    forall i | 0 <= i < |kept|
      ensures kept[i].date != shift.date
    {
      assert kept[i] in kept;
    }
  }

  /** Saving keeps the one-entry-per-date invariant. */
  lemma SaveShiftKeepsUniqueDates(data: AppData, shift: DayShift)
    requires UniqueDates(data.shifts)
    ensures UniqueDates(SaveShift(data, shift).shifts)
  {
    var keep := (s: DayShift) => s.date != shift.date;
    var kept := Filter(data.shifts, keep);
    FilterPreservesUniqueDates(data.shifts, keep);
    UniqueDatesSnoc(kept, shift);
  }

  lemma UniqueDatesSnoc(shifts: seq<DayShift>, shift: DayShift)
    requires UniqueDates(shifts)
    requires forall s :: s in shifts ==> s.date != shift.date
    ensures UniqueDates(shifts + [shift])
  {
    var r := shifts + [shift];
    forall i, j | 0 <= i < j < |r|
      ensures r[i].date != r[j].date
    {
      assert r[i] == shifts[i];
      if j == |shifts| {
        assert shifts[i] in shifts;
      }
    }
  }

  lemma {:induction false} FilterPreservesUniqueDates(shifts: seq<DayShift>, keep: DayShift -> bool)
    requires UniqueDates(shifts)
    ensures UniqueDates(Filter(shifts, keep))
    decreases |shifts|
  {
    if shifts != [] {
      var init := shifts[..|shifts| - 1];
      var last := shifts[|shifts| - 1];
      assert UniqueDates(init);
      FilterPreservesUniqueDates(init, keep);
      var front := Filter(init, keep);
      if keep(last) {
        forall i | 0 <= i < |front|
          ensures front[i].date != last.date
        {
          assert front[i] in init;
        }
      }
    }
  }

  /** Saving twice on one date: the second save wins outright. */
  lemma SaveShiftTwiceSameDate(data: AppData, first: DayShift, second: DayShift)
    requires first.date == second.date
    ensures SaveShift(SaveShift(data, first), second) == SaveShift(data, second)
  {
    var keep := (s: DayShift) => s.date != second.date;
    var keepFirst := (s: DayShift) => s.date != first.date;
    assert keep == keepFirst;
    var kept := Filter(data.shifts, keep);
    FilterAppend(kept, [first], keep);
    FilterIdempotent(data.shifts, keep);
    assert Filter([first], keep) == [];
  }

  // ---------------------------------------------------------------------------
  // Deletion by id: exactly the matching elements go, nothing cascades

  /** `handleDeleteAccount`. Transactions that reference the account stay. */
  function DeleteAccount(data: AppData, id: string): (r: AppData)
    ensures r.(accounts := data.accounts) == data
    ensures SubsequenceOf(r.accounts, data.accounts)
    ensures forall a :: a in r.accounts <==> a in data.accounts && a.id != id
    ensures forall a: Account :: a.id != id ==> multiset(r.accounts)[a] == multiset(data.accounts)[a]
  {
    data.(accounts := Filter(data.accounts, (a: Account) => a.id != id))
  }

  /** `handleDeleteRec`. */
  function DeleteRec(data: AppData, id: string): (r: AppData)
    ensures r.(recurring := data.recurring) == data
    ensures SubsequenceOf(r.recurring, data.recurring)
    ensures forall x :: x in r.recurring <==> x in data.recurring && x.id != id
    ensures forall x: RecurringItem :: x.id != id ==> multiset(r.recurring)[x] == multiset(data.recurring)[x]
  {
    data.(recurring := Filter(data.recurring, (x: RecurringItem) => x.id != id))
  }

  /** `handleDeleteShiftType`. */
  function DeleteShiftType(data: AppData, id: string): (r: AppData)
    ensures r.(shiftTypes := data.shiftTypes) == data
    ensures SubsequenceOf(r.shiftTypes, data.shiftTypes)
    ensures forall t :: t in r.shiftTypes <==> t in data.shiftTypes && t.id != id
    ensures forall t: ShiftType :: t.id != id ==> multiset(r.shiftTypes)[t] == multiset(data.shiftTypes)[t]
  {
    data.(shiftTypes := Filter(data.shiftTypes, (t: ShiftType) => t.id != id))
  }

  /** Deleting an id nobody has changes nothing; deleting twice is deleting
      once. */
  lemma DeleteAccountNoMatchAndTwice(data: AppData, id: string)
    ensures (forall a :: a in data.accounts ==> a.id != id) ==> DeleteAccount(data, id) == data
    ensures DeleteAccount(DeleteAccount(data, id), id) == DeleteAccount(data, id)
  {
    var keep := (a: Account) => a.id != id;
    if forall a :: a in data.accounts ==> a.id != id {
      FilterKeepsAll(data.accounts, keep);
    }
    FilterIdempotent(data.accounts, keep);
  }

  // ---------------------------------------------------------------------------
  // Appending with a clock-derived id

  const OpeningBalanceNote: string := "初始餘額"

  /** An id made from a clock value: the prefix followed by the clock in
      decimal, which can be read back. */
  function ClockId(prefix: string, now: int): (r: string)
    ensures |prefix| < |r| && r[..|prefix|] == prefix
    ensures IsDecimal(r[|prefix|..]) && DecimalValue(r[|prefix|..]) == now
  {
    DecimalStringRoundTrip(now);
    var r := prefix + DecimalString(now);
    assert r[|prefix|..] == DecimalString(now);
    r
  }

  /** The id of an account created at clock value `now`. */
  function NewAccountId(now: int): string {
    ClockId("acc_", now)
  }

  /** `handleAddAccount(name, balance, type)`: append an account with the
      id `acc_{now}` and a stored balance of 0; a positive opening balance
      becomes an `income` transaction (id `now`, dated `isoNow`) drawn on
      the new account instead. */
  function AddAccount(data: AppData, name: string, balance: int, kind: AccountType, now: int, isoNow: string): (r: AppData)
    ensures r.(accounts := data.accounts, transactions := data.transactions) == data
    ensures r.accounts == data.accounts + [Account(NewAccountId(now), name, kind, 0)]
    ensures |r.transactions| == |data.transactions| + (if balance > 0 then 1 else 0)
    ensures r.transactions[..|data.transactions|] == data.transactions
    ensures balance > 0 ==>
      var t := r.transactions[|data.transactions|];
      t.kind == Income && t.amount == balance && t.acctFrom == Some(NewAccountId(now)) && t.acctTo.None?
  {
    var id := NewAccountId(now);
    var opening := if balance > 0
      then [Transaction(now, Income, balance, OpeningBalanceNote, isoNow, Some(id), None)]
      else [];
    assert (data.transactions + opening)[..|data.transactions|] == data.transactions;
    data.(accounts := data.accounts + [Account(id, name, kind, 0)],
          transactions := data.transactions + opening)
  }

  /** Deleting the account just added restores the account list, when its id
      was not already taken. The opening transaction is not removed. */
  lemma DeleteUndoesAddAccount(data: AppData, name: string, balance: int, kind: AccountType, now: int, isoNow: string)
    requires forall a :: a in data.accounts ==> a.id != NewAccountId(now)
    ensures DeleteAccount(AddAccount(data, name, balance, kind, now, isoNow), NewAccountId(now)).accounts == data.accounts
  {
    var keep := (a: Account) => a.id != NewAccountId(now);
    FilterAppend(data.accounts, [Account(NewAccountId(now), name, kind, 0)], keep);
    FilterKeepsAll(data.accounts, keep);
  }

  /** Adding an account with a fresh id keeps the ids distinct. */
  lemma AddAccountKeepsIdsDistinct(data: AppData, name: string, balance: int, kind: AccountType, now: int, isoNow: string)
    requires DistinctAccountIds(data.accounts)
    requires forall a :: a in data.accounts ==> a.id != NewAccountId(now)
    ensures DistinctAccountIds(AddAccount(data, name, balance, kind, now, isoNow).accounts)
  {
    var r := AddAccount(data, name, balance, kind, now, isoNow).accounts;
    forall i, j | 0 <= i < j < |r|
      ensures r[i].id != r[j].id
    {
      if j == |data.accounts| {
        assert r[i] == data.accounts[i];
        assert data.accounts[i] in data.accounts;
      }
    }
  }

  /** The form data of a recurring item, before it has an id. */
  datatype RecurringDraft = RecurringDraft(name: string, amount: int, day: int, accountId: string)

  /** The id of a recurring item created at clock value `now`. */
  function NewRecId(now: int): string {
    ClockId("rec_", now)
  }

  /** `handleSaveRec`: append the item with the id `rec_{now}`. */
  function SaveRec(data: AppData, draft: RecurringDraft, now: int): (r: AppData)
    ensures r.(recurring := data.recurring) == data
    ensures |r.recurring| == |data.recurring| + 1
    ensures r.recurring[..|data.recurring|] == data.recurring
    ensures var x := r.recurring[|data.recurring|];
      x.id == NewRecId(now) && x.name == draft.name && x.amount == draft.amount
      && x.day == draft.day && x.accountId == draft.accountId
  {
    var item := RecurringItem(NewRecId(now), draft.name, draft.amount, draft.day, draft.accountId);
    assert (data.recurring + [item])[..|data.recurring|] == data.recurring;
    data.(recurring := data.recurring + [item])
  }

  /** Deleting the item just saved restores the list, when its id was new. */
  lemma DeleteUndoesSaveRec(data: AppData, draft: RecurringDraft, now: int)
    requires forall x :: x in data.recurring ==> x.id != NewRecId(now)
    ensures DeleteRec(SaveRec(data, draft, now), NewRecId(now)) == data
  {
    var keep := (x: RecurringItem) => x.id != NewRecId(now);
    var item := RecurringItem(NewRecId(now), draft.name, draft.amount, draft.day, draft.accountId);
    assert SaveRec(data, draft, now).recurring == data.recurring + [item];
    FilterAppend(data.recurring, [item], keep);
    FilterKeepsAll(data.recurring, keep);
  }

  /** The form data of a shift type, before it has an id. */
  datatype ShiftTypeDraft = ShiftTypeDraft(name: string, rate: int, start: string, end: string, color: string)

  /** The id of a shift type created at clock value `now`. */
  function NewShiftTypeId(now: int): string {
    ClockId("st_", now)
  }

  /** `handleAddShiftType`: append the type with the id `st_{now}`. */
  function AddShiftType(data: AppData, draft: ShiftTypeDraft, now: int): (r: AppData)
    ensures r.(shiftTypes := data.shiftTypes) == data
    ensures |r.shiftTypes| == |data.shiftTypes| + 1
    ensures r.shiftTypes[..|data.shiftTypes|] == data.shiftTypes
    ensures var t := r.shiftTypes[|data.shiftTypes|];
      t.id == NewShiftTypeId(now) && t.name == draft.name && t.rate == draft.rate
      && t.start == draft.start && t.end == draft.end && t.color == draft.color
  {
    var t := ShiftType(NewShiftTypeId(now), draft.name, draft.rate, draft.start, draft.end, draft.color);
    assert (data.shiftTypes + [t])[..|data.shiftTypes|] == data.shiftTypes;
    data.(shiftTypes := data.shiftTypes + [t])
  }

  /** Deleting the type just added restores the list, when its id was new. */
  lemma DeleteUndoesAddShiftType(data: AppData, draft: ShiftTypeDraft, now: int)
    requires forall t :: t in data.shiftTypes ==> t.id != NewShiftTypeId(now)
    ensures DeleteShiftType(AddShiftType(data, draft, now), NewShiftTypeId(now)) == data
  {
    var keep := (t: ShiftType) => t.id != NewShiftTypeId(now);
    var t := ShiftType(NewShiftTypeId(now), draft.name, draft.rate, draft.start, draft.end, draft.color);
    assert AddShiftType(data, draft, now).shiftTypes == data.shiftTypes + [t];
    FilterAppend(data.shiftTypes, [t], keep);
    FilterKeepsAll(data.shiftTypes, keep);
  }

  /** Two saves append the two drafts, both with the id of their clock. */
  lemma SaveRecTwice(data: AppData, d1: RecurringDraft, d2: RecurringDraft, now: int)
    ensures SaveRec(SaveRec(data, d1, now), d2, now).recurring
         == data.recurring + [RecurringItem(NewRecId(now), d1.name, d1.amount, d1.day, d1.accountId),
                              RecurringItem(NewRecId(now), d2.name, d2.amount, d2.day, d2.accountId)]
  {
    var a := RecurringItem(NewRecId(now), d1.name, d1.amount, d1.day, d1.accountId);
    var b := RecurringItem(NewRecId(now), d2.name, d2.amount, d2.day, d2.accountId);
    assert SaveRec(data, d1, now).recurring == data.recurring + [a];
    assert SaveRec(SaveRec(data, d1, now), d2, now).recurring == (data.recurring + [a]) + [b];
  }

  /** Two adds in the same millisecond produce the same id, and one delete
      then removes both items. */
  lemma SameClockIdsCollide(data: AppData, d1: RecurringDraft, d2: RecurringDraft, now: int)
    ensures var twice := SaveRec(SaveRec(data, d1, now), d2, now);
      twice.recurring[|data.recurring|].id == twice.recurring[|data.recurring| + 1].id
    ensures |DeleteRec(SaveRec(SaveRec(data, d1, now), d2, now), NewRecId(now)).recurring| <= |data.recurring|
    ensures DeleteRec(SaveRec(SaveRec(data, d1, now), d2, now), NewRecId(now)).recurring
         == DeleteRec(data, NewRecId(now)).recurring
  {
    var keep := (x: RecurringItem) => x.id != NewRecId(now);
    var a := RecurringItem(NewRecId(now), d1.name, d1.amount, d1.day, d1.accountId);
    var b := RecurringItem(NewRecId(now), d2.name, d2.amount, d2.day, d2.accountId);
    SaveRecTwice(data, d1, d2, now);
    FilterAppend(data.recurring, [a, b], keep);
    FilterRejectsAll([a, b], keep);
  }
}

=== FILE: lists.dfy ===
/** `Array.prototype.filter` on immutable sequences, and the facts the state
    handlers rely on: it keeps exactly the elements the predicate accepts,
    with their multiplicities, in their original relative order. */
module Lists {

  /** `a` can be obtained from `b` by deleting elements (matched from the back). */
  predicate SubsequenceOf<T(==)>(a: seq<T>, b: seq<T>)
    decreases |b|
  {
    if a == [] then true
    else if b == [] then false
    else if a[|a| - 1] == b[|b| - 1] then SubsequenceOf(a[..|a| - 1], b[..|b| - 1])
    else SubsequenceOf(a, b[..|b| - 1])
  }

  function Filter<T(==,!new)>(s: seq<T>, keep: T -> bool): (r: seq<T>)
    ensures |r| <= |s|
    ensures SubsequenceOf(r, s)
    ensures forall x :: keep(x) ==> multiset(r)[x] == multiset(s)[x]
    ensures forall x :: !keep(x) ==> multiset(r)[x] == 0
    ensures forall x :: x in r <==> x in s && keep(x)
    decreases |s|
  {
    if s == [] then []
    else
      var init, last := s[..|s| - 1], s[|s| - 1];
      assert s == init + [last];
      var front := Filter(init, keep);
      if keep(last) then
        assert (front + [last])[..|front|] == front;
        front + [last]
      else
        assert front != [] ==> front[|front| - 1] in front;
        front
  }

  /** Filtering a concatenation filters each part: relative order is kept. */
  lemma {:induction false} FilterAppend<T(!new)>(a: seq<T>, b: seq<T>, keep: T -> bool)
    ensures Filter(a + b, keep) == Filter(a, keep) + Filter(b, keep)
    decreases |b|
  {
    if b != [] {
      var init := b[..|b| - 1];
      assert (a + b)[..|a + b| - 1] == a + init;
      assert (a + b)[|a + b| - 1] == b[|b| - 1];
      FilterAppend(a, init, keep);
    } else {
      assert a + b == a;
    }
  }

  /** A filter that rejects nothing returns its input. */
  lemma {:induction false} FilterKeepsAll<T(!new)>(s: seq<T>, keep: T -> bool)
    requires forall x :: x in s ==> keep(x)
    ensures Filter(s, keep) == s
    decreases |s|
  {
    if s != [] {
      var init := s[..|s| - 1];
      assert s == init + [s[|s| - 1]];
      FilterKeepsAll(init, keep);
    }
  }

  lemma AppendAssoc<T>(a: seq<T>, b: seq<T>, c: seq<T>)
    ensures a + (b + c) == (a + b) + c
  {
    assert |a + (b + c)| == |(a + b) + c|;
    forall i | 0 <= i < |a + (b + c)|
      ensures (a + (b + c))[i] == ((a + b) + c)[i]
    {
    }
  }

  /** A filter that keeps nothing returns the empty sequence. */
  lemma {:induction false} FilterRejectsAll<T(!new)>(s: seq<T>, keep: T -> bool)
    requires forall x :: x in s ==> !keep(x)
    ensures Filter(s, keep) == []
    decreases |s|
  {
    if s != [] {
      var init := s[..|s| - 1];
      assert s == init + [s[|s| - 1]];
      FilterRejectsAll(init, keep);
    }
  }

  /** Filtering twice with the same predicate is filtering once. */
  lemma FilterIdempotent<T(!new)>(s: seq<T>, keep: T -> bool)
    ensures Filter(Filter(s, keep), keep) == Filter(s, keep)
  {
    FilterKeepsAll(Filter(s, keep), keep);
  }
}

=== FILE: loader.dfy ===
/** The initial-state loader of App.tsx: a fresh state when nothing is
    stored, otherwise the stored record with five fields defaulted by
    JavaScript's `||`, which treats every falsy value (absent, `0`, `''`)
    as missing. Reading local storage and `JSON.parse` are not modelled: the
    input is the already-parsed record. */
module Loader {
  import opened Options
  import opened Types

  const DefaultBudget: int := 40000
  const DisabledSalary: SalaryConfig := SalaryConfig(0, 5, "", false)

  /** A parsed snapshot. The five fields the loader defaults may be absent;
      the others are taken as present. */
  datatype Parsed = Parsed(
    budget: Option<int>,
    transactions: seq<Transaction>,
    accounts: seq<Account>,
    shifts: seq<DayShift>,
    shiftTypes: seq<ShiftType>,
    recurring: seq<RecurringItem>,
    salaryConfig: Option<SalaryConfig>,
    tags: seq<string>,
    processedEvents: Option<seq<string>>,
    cloudSyncUrl: Option<string>,
    lastSynced: Option<string>)

  /** `n || fallback` for a number: absent and 0 both give the fallback. */
  function OrNumber(v: Option<int>, fallback: int): (r: int)
    ensures r == fallback <==> v.None? || v.value == 0 || v.value == fallback
    ensures r != fallback ==> v == Some(r)
  {
    if v.Some? && v.value != 0 then v.value else fallback
  }

  /** `s || fallback` for a string: absent and '' both give the fallback. */
  function OrString(v: Option<string>, fallback: string): (r: string)
    ensures r == fallback <==> v.None? || v.value == "" || v.value == fallback
    ensures r != fallback ==> v == Some(r)
  {
    if v.Some? && v.value != "" then v.value else fallback
  }

  /** The state of a first start: the default budget, the initial account
      and tag catalogues, the salary switched off, and nothing recorded. */
  function FreshState(): (r: AppData)
    ensures r.budget == DefaultBudget && r.salaryConfig == DisabledSalary
    ensures r.accounts == InitialAccounts && r.tags == InitialTags
    ensures r.transactions == [] && r.shifts == [] && r.shiftTypes == [] && r.recurring == []
    ensures r.processedEvents == []
    ensures r.cloudSyncUrl == Some("") && r.lastSynced == Some("")
  {
    AppData(DefaultBudget, [], InitialAccounts, [], [], [], DisabledSalary, InitialTags, [], Some(""), Some(""))
  }

  /** The state the application starts from. `None` stands for "nothing
      stored" (`getItem` gave null or ''). Objects and arrays are truthy, so
      a stored salary config or event log is kept even when empty. */
  function Load(saved: Option<Parsed>): (r: AppData)
    ensures saved.None? ==> r == FreshState()
    ensures r.budget != 0
    ensures r.cloudSyncUrl.Some? && r.lastSynced.Some?
    ensures saved.Some? ==>
      && (r.cloudSyncUrl.value == "" <==> saved.value.cloudSyncUrl.None? || saved.value.cloudSyncUrl.value == "")
      && (r.cloudSyncUrl.value != "" ==> r.cloudSyncUrl == saved.value.cloudSyncUrl)
      && (r.lastSynced.value == "" <==> saved.value.lastSynced.None? || saved.value.lastSynced.value == "")
      && (r.lastSynced.value != "" ==> r.lastSynced == saved.value.lastSynced)
    ensures saved.Some? && saved.value.budget.Some? && saved.value.budget.value != 0 ==>
      r.budget == saved.value.budget.value
    ensures saved.Some? && (saved.value.budget.None? || saved.value.budget.value == 0) ==>
      r.budget == DefaultBudget
    ensures saved.Some? ==>
      && (saved.value.salaryConfig.Some? ==> r.salaryConfig == saved.value.salaryConfig.value)
      && (saved.value.salaryConfig.None? ==> r.salaryConfig == DisabledSalary)
      && (saved.value.processedEvents.Some? ==> r.processedEvents == saved.value.processedEvents.value)
      && (saved.value.processedEvents.None? ==> r.processedEvents == [])
    ensures saved.Some? ==>
      && r.transactions == saved.value.transactions
      && r.accounts == saved.value.accounts
      && r.shifts == saved.value.shifts
      && r.shiftTypes == saved.value.shiftTypes
      && r.recurring == saved.value.recurring
      && r.tags == saved.value.tags
  {
    match saved
    case None => FreshState()
    case Some(p) =>
      AppData(
        OrNumber(p.budget, DefaultBudget),
        p.transactions,
        p.accounts,
        p.shifts,
        p.shiftTypes,
        p.recurring,
        ValueOr(p.salaryConfig, DisabledSalary),
        p.tags,
        ValueOr(p.processedEvents, []),
        Some(OrString(p.cloudSyncUrl, "")),
        Some(OrString(p.lastSynced, "")))
  }

  /** What a saved state parses back to: `JSON.stringify` drops undefined
      fields and keeps every other one. */
  function Snapshot(d: AppData): (r: Parsed)
    ensures r.budget == Some(d.budget) && r.salaryConfig == Some(d.salaryConfig)
    ensures r.processedEvents == Some(d.processedEvents)
    ensures r.cloudSyncUrl == d.cloudSyncUrl && r.lastSynced == d.lastSynced
    ensures r.transactions == d.transactions && r.accounts == d.accounts && r.shifts == d.shifts
    ensures r.shiftTypes == d.shiftTypes && r.recurring == d.recurring && r.tags == d.tags
  {
    Parsed(Some(d.budget), d.transactions, d.accounts, d.shifts, d.shiftTypes, d.recurring,
           Some(d.salaryConfig), d.tags, Some(d.processedEvents), d.cloudSyncUrl, d.lastSynced)
  }

  /** Saving and reloading gives back the state, except that a zero budget
      comes back as 40000 and an absent sync URL or sync time as ''. */
  lemma SnapshotRoundTrip(d: AppData)
    ensures Load(Some(Snapshot(d)))
         == d.(budget := if d.budget == 0 then DefaultBudget else d.budget,
               cloudSyncUrl := Some(ValueOr(d.cloudSyncUrl, "")),
               lastSynced := Some(ValueOr(d.lastSynced, "")))
    ensures d.budget != 0 && d.cloudSyncUrl.Some? && d.lastSynced.Some? ==> Load(Some(Snapshot(d))) == d
  {
  }

  /** A budget of 0 does not survive a reload. */
  lemma ZeroBudgetIsReplaced(d: AppData)
    requires d.budget == 0
    ensures Load(Some(Snapshot(d))).budget == DefaultBudget
    ensures Load(Some(Snapshot(d))) != d
  {
  }

  /** Whatever was loaded survives a save and reload unchanged. */
  lemma LoadedStateIsStable(saved: Option<Parsed>)
    ensures Load(Some(Snapshot(Load(saved)))) == Load(saved)
  {
    SnapshotRoundTrip(Load(saved));
  }

  /** The fresh state's account catalogue is the initial one, so the
      automation's fallback account resolves to 'cash'. */
  lemma FreshStateAccounts()
    ensures FreshState().accounts == InitialAccounts
    ensures |FreshState().accounts| > 0 && FreshState().accounts[0].id == "cash"
    ensures DistinctAccountIds(FreshState().accounts)
  {
    InitialAccountsWellFormed();
  }
}

=== FILE: options.dfy ===
/** A value that may be missing: the model's stand-in for a JavaScript value
    that may be `undefined` (an absent field, or `accounts[0]?.id` on an empty
    list). */
module Options {

  datatype Option<T> = None | Some(value: T)

  /** JavaScript's `v || fallback` for a value whose only falsy form is
      `undefined`: the value when there is one, the fallback otherwise. */
  function ValueOr<T>(v: Option<T>, fallback: T): T {
    if v.Some? then v.value else fallback
  }
}

=== FILE: scenarios.dfy ===
/** Concrete runs of the automation pass on states built from the fresh
    state: the salary deposit, its duplicate guard, and the fallback account
    of a recurring bill. */
module Scenarios {
  import opened Options
  import opened Text
  import opened Types
  import opened Automation
  import opened Loader

  /** A fresh state has the salary disabled and no recurring items, so the
      pass leaves it alone on any day. */
  lemma FreshStateIsQuiet(month: string, day: int, now: int)
    ensures Automate(month, day, now, FreshState()) == FreshState()
  {
    NoOpIffNothingDue(month, day, now, FreshState());
  }

  function SalaryState(processed: seq<string>): AppData {
    FreshState().(salaryConfig := SalaryConfig(50000, 5, "cash", true), processedEvents := processed)
  }

  /** Salary of 50000 on day 5 to 'cash', evaluated on day 10 of 2026-03
      with an empty log: one income dated 2026-03-05T09:00, one key. */
  lemma SalaryDeposited(now: int)
    ensures Automate("2026-03", 10, now, SalaryState([])).transactions
         == [Transaction(now, Income, 50000, SalaryNote, "2026-03-05T09:00", Some("cash"), None)]
    ensures Automate("2026-03", 10, now, SalaryState([])).processedEvents == ["2026-03-SALARY"]
  {
    var data := SalaryState([]);
    PlanMatchesReference("2026-03", 10, now, data);
    DateStampFormat("2026-03", 5);
    assert DateStamp("2026-03", 5) == "2026-03-05T09:00";
    assert SalaryKey("2026-03") == "2026-03-SALARY";
    assert SalaryFires("2026-03", 10, data);
    assert FiredBefore("2026-03", 10, data, 0) == [];
    var tx := SalaryTx("2026-03", data.salaryConfig, data.accounts, now);
    assert tx == Transaction(now, Income, 50000, SalaryNote, "2026-03-05T09:00", Some("cash"), None);
    assert Plan("2026-03", 10, now, data).txs == [tx];
    assert Plan("2026-03", 10, now, data).keys == ["2026-03-SALARY"];
  }

  /** The same evaluation once the key is logged emits nothing. */
  lemma SalaryNotRepeated(now: int)
    ensures Automate("2026-03", 10, now, SalaryState(["2026-03-SALARY"])) == SalaryState(["2026-03-SALARY"])
  {
    assert SalaryKey("2026-03") == "2026-03-SALARY";
    assert NothingNewlyDue("2026-03", 10, SalaryState(["2026-03-SALARY"]));
    NoOpIffNothingDue("2026-03", 10, now, SalaryState(["2026-03-SALARY"]));
  }

  /** A recurring bill with no account configured, due on day 15 and
      evaluated on day 20, is drawn on the first account, 'cash'. */
  lemma RecurringFallsBackToCash(now: int)
    ensures var data := FreshState().(recurring := [RecurringItem("r1", "Gym", 300, 15, "")]);
      var r := Automate("2026-03", 20, now, data);
      && |r.transactions| == 1
      && r.transactions[0].kind == Expense
      && r.transactions[0].amount == 300
      && r.transactions[0].acctFrom == Some("cash")
      && r.processedEvents == ["2026-03-REC-r1"]
  {
    var data := FreshState().(recurring := [RecurringItem("r1", "Gym", 300, 15, "")]);
    PlanMatchesReference("2026-03", 20, now, data);
    assert RecKey("2026-03", "r1") == "2026-03-REC-r1";
    assert !SalaryFires("2026-03", 20, data);
    assert !EarlierDue(data.recurring, 20, "r1", 0);
    assert RecFires("2026-03", 20, data, 0);
    FiredBeforeStep("2026-03", 20, data, 0);
    assert FiredBefore("2026-03", 20, data, 0) == [];
    assert FiredBefore("2026-03", 20, data, 1) == [0];
    var tx := RecTx("2026-03", data.recurring[0], data.accounts, now);
    assert RecTxsAt("2026-03", now, data, [0]) == [tx];
    assert RecKeysAt("2026-03", data, [0]) == ["2026-03-REC-r1"];
    assert tx.acctFrom == Some("cash");
  }
}

=== FILE: text.dfy ===
/** The two pieces of JavaScript string formatting the automation uses:
    `String(n)` for an integer and `s.padStart(width, fill)`. */
module Text {

  predicate IsDigit(c: char) {
    '0' <= c <= '9'
  }

  predicate AllDigits(s: string) {
    forall i :: 0 <= i < |s| ==> IsDigit(s[i])
  }

  function DigitChar(d: int): (c: char)
    requires 0 <= d < 10
    ensures IsDigit(c)
  {
    "0123456789"[d]
  }

  function DigitValue(c: char): int
    requires IsDigit(c)
  {
    c as int - '0' as int
  }

  /** Decimal digits of a natural number, most significant first, without
      leading zeros. */
  function NatToDigits(n: nat): string
    decreases n
  {
    if n < 10 then [DigitChar(n)] else NatToDigits(n / 10) + [DigitChar(n % 10)]
  }

  lemma {:induction false} NatToDigitsAreDigits(n: nat)
    ensures 1 <= |NatToDigits(n)|
    ensures AllDigits(NatToDigits(n))
    decreases n
  {
    if n >= 10 {
      NatToDigitsAreDigits(n / 10);
    }
  }

  /** `String(n)` for an integer `n` with |n| < 10^21: a leading '-' for
      negatives. From 10^21 on JavaScript switches to exponent form
      (`"1e+21"`), which is not modelled; clock values and days stay far
      below that bound. */
  function DecimalString(n: int): (r: string)
    ensures 0 < |r|
    ensures r[0] == '-' <==> n < 0
  {
    NatToDigitsAreDigits(if n < 0 then -n else n);
    if n < 0 then "-" + NatToDigits(-n) else NatToDigits(n)
  }

  /** Reads a string of decimal digits back as a number. */
  function DigitsValue(s: string): nat
    requires AllDigits(s)
  {
    if s == [] then 0 else DigitsValue(s[..|s| - 1]) * 10 + DigitValue(s[|s| - 1])
  }

  lemma {:induction false} NatToDigitsRoundTrip(n: nat)
    ensures AllDigits(NatToDigits(n))
    ensures DigitsValue(NatToDigits(n)) == n
    decreases n
  {
    NatToDigitsAreDigits(n);
    var r := NatToDigits(n);
    if n >= 10 {
      NatToDigitsRoundTrip(n / 10);
      assert r[..|r| - 1] == NatToDigits(n / 10);
    }
  }

  /** The strings `DecimalString` produces: digits, optionally after a '-'. */
  predicate IsDecimal(s: string) {
    if 0 < |s| && s[0] == '-' then 1 < |s| && AllDigits(s[1..]) else 0 < |s| && AllDigits(s)
  }

  /** Reads a `DecimalString` back; the inverse of printing. */
  function DecimalValue(s: string): int
    requires IsDecimal(s)
  {
    if s[0] == '-' then -(DigitsValue(s[1..]) as int) else DigitsValue(s)
  }

  lemma DecimalStringRoundTrip(n: int)
    ensures IsDecimal(DecimalString(n))
    ensures DecimalValue(DecimalString(n)) == n
  {
    var s := DecimalString(n);
    NatToDigitsAreDigits(if n < 0 then -n else n);
    if n < 0 {
      assert s[1..] == NatToDigits(-n);
      NatToDigitsRoundTrip(-n);
    } else {
      assert IsDigit(s[0]);
      NatToDigitsRoundTrip(n);
    }
  }

  /** Distinct integers print differently. */
  lemma DecimalStringInjective(a: int, b: int)
    ensures DecimalString(a) == DecimalString(b) ==> a == b
  {
    DecimalStringRoundTrip(a);
    DecimalStringRoundTrip(b);
  }

  /** `s.padStart(width, fill)` with a one-character fill. */
  function PadStart(s: string, width: nat, fill: char): (r: string)
    ensures |r| == (if |s| >= width then |s| else width)
    ensures |s| >= width ==> r == s
    decreases width - |s|
  {
    if |s| >= width then s else PadStart([fill] + s, width, fill)
  }

  /** The fill is put in front until the string is `width` long; a string
      that is already long enough is untouched. */
  lemma {:induction false} PadStartSpec(s: string, width: nat, fill: char)
    ensures var r := PadStart(s, width, fill);
      && |r| == (if |s| >= width then |s| else width)
      && r[|r| - |s|..] == s
      && forall i :: 0 <= i < |r| - |s| ==> r[i] == fill
    decreases width - |s|
  {
    if |s| < width {
      PadStartSpec([fill] + s, width, fill);
      var r := PadStart(s, width, fill);
      assert r[|r| - |s| - 1..] == [fill] + s;
      assert r[|r| - |s|..] == ([fill] + s)[1..];
    }
  }

  /** A day number in 0..99 pads to exactly its two decimal digits. */
  lemma TwoDigitPad(d: int)
    requires 0 <= d < 100
    ensures PadStart(DecimalString(d), 2, '0') == [DigitChar(d / 10), DigitChar(d % 10)]
  {
    if d < 10 {
      assert DecimalString(d) == [DigitChar(d)];
      assert PadStart([DigitChar(d)], 2, '0') == PadStart(['0', DigitChar(d)], 2, '0');
    } else {
      assert NatToDigits(d / 10) == [DigitChar(d / 10)];
      assert DecimalString(d) == [DigitChar(d / 10), DigitChar(d % 10)];
    }
  }
}

=== FILE: types.dfy ===
/** The records of the finance tracker's persisted state, and the catalogue
    constants a fresh state starts from. Amounts, rates and the budget are
    integers here; the application stores JavaScript numbers. */
module Types {
  import opened Options

  /** The string union 'income' | 'expense' | 'transfer'. */
  datatype TransactionType = Income | Expense | Transfer

  /** The string union 'bank' | 'cash' | 'card' of an account. */
  datatype AccountType = Bank | Cash | Card

  function TransactionTypeName(t: TransactionType): string {
    match t
    case Income => "income"
    case Expense => "expense"
    case Transfer => "transfer"
  }

  /** The union member a tag names, if any: a tag belongs to the union iff
      it is one of its three strings. */
  function ParseTransactionType(s: string): (r: Option<TransactionType>)
    ensures r.Some? <==> s in {"income", "expense", "transfer"}
  {
    if s == "income" then Some(Income)
    else if s == "expense" then Some(Expense)
    else if s == "transfer" then Some(Transfer)
    else None
  }

  function AccountTypeName(t: AccountType): string {
    match t
    case Bank => "bank"
    case Cash => "cash"
    case Card => "card"
  }

  /** The union member an account type tag names, if any. */
  function ParseAccountType(s: string): (r: Option<AccountType>)
    ensures r.Some? <==> s in {"bank", "cash", "card"}
  {
    if s == "bank" then Some(Bank)
    else if s == "cash" then Some(Cash)
    else if s == "card" then Some(Card)
    else None
  }

  /** Each union has exactly its three tags: printing and parsing are inverse. */
  lemma TypeTagsRoundTrip(t: TransactionType, a: AccountType, s: string)
    ensures ParseTransactionType(TransactionTypeName(t)) == Some(t)
    ensures ParseTransactionType(s) == Some(t) ==> TransactionTypeName(t) == s
    ensures ParseAccountType(AccountTypeName(a)) == Some(a)
    ensures ParseAccountType(s) == Some(a) ==> AccountTypeName(a) == s
  {
  }

  datatype Account = Account(id: string, name: string, kind: AccountType, balance: int)

  /** `acctFrom` is declared as a string, but the automation can store
      `undefined` in it (see Automation.ResolveAccount), so it is optional
      here like `acctTo`. */
  datatype Transaction = Transaction(
    id: int,
    kind: TransactionType,
    amount: int,
    note: string,
    date: string,
    acctFrom: Option<string>,
    acctTo: Option<string>)

  datatype ShiftType = ShiftType(id: string, name: string, rate: int, start: string, end: string, color: string)

  datatype ShiftItem = ShiftItem(name: string, color: string, pay: int)

  /** The shifts worked on one calendar date (`YYYY-MM-DD`), the key of the
      shift list. */
  datatype DayShift = DayShift(date: string, items: seq<ShiftItem>, isDouble: bool, note: string)

  datatype RecurringItem = RecurringItem(id: string, name: string, amount: int, day: int, accountId: string)

  datatype SalaryConfig = SalaryConfig(amount: int, day: int, accountId: string, enabled: bool)

  datatype AppData = AppData(
    budget: int,
    transactions: seq<Transaction>,
    accounts: seq<Account>,
    shifts: seq<DayShift>,
    shiftTypes: seq<ShiftType>,
    recurring: seq<RecurringItem>,
    salaryConfig: SalaryConfig,
    tags: seq<string>,
    processedEvents: seq<string>,
    cloudSyncUrl: Option<string>,
    lastSynced: Option<string>)

  /** No two accounts share an id. */
  predicate DistinctAccountIds(accounts: seq<Account>) {
    forall i, j :: 0 <= i < j < |accounts| ==> accounts[i].id != accounts[j].id
  }

  const InitialAccounts: seq<Account> := [
    Account("cash", "現金", Cash, 0),
    Account("taishin", "台新銀行", Bank, 0),
    Account("post", "郵局", Bank, 0)
  ]

  const InitialTags: seq<string> := ["早餐", "午餐", "晚餐", "飲料", "交通", "娛樂", "購物", "日用"]

  /** The starting catalogue is non-empty, its ids are distinct and the first
      one, the account the automation falls back to, is 'cash'. */
  lemma InitialAccountsWellFormed()
    ensures |InitialAccounts| > 0
    ensures InitialAccounts[0].id == "cash"
    ensures DistinctAccountIds(InitialAccounts)
  {
  }
}
